=== FILE: README.md ===
# Triangle calculator: solver and form state in Dafny

This project models the triangle solver of a small React calculator. `calculateTriangle` takes three optional sides `a, b, c` and three optional angles `α, β, γ`, with angle i opposite side i. It does the following:

- It counts the known values.
- It picks one of the SSS, SAS, ASA, AAS and SSA cases through a fixed if/else chain.
- It fills in the missing slots with the laws of cosines and sines.
- It rejects impossible input with one of six error messages.
- It derives the area (Heron's formula), the perimeter and the triangle type.
- It rounds every displayed number to four decimals.

The project also models `hasEnoughInformation` (the page's guard), `validateInput` (the per-field check) and the page's form state. For the form, `handleInputChange` updates one field and its error entry, and the results effect derives the displayed result from the fields.

Modules:

- `Slots`: optional values, three-slot arrays (`Triple`), and the index arithmetic `3 - i - j` (`Third`) and `(i + k) % 3` (`Cyc`).
- `Numerics`: degree/radian conversion, the `1e-4` tolerance, and `Math.round(x * 10000) / 10000`. It also defines `Lib`, the floating-point routines (`sin`, `cos`, `asin`, `acos`, `sqrt`, and division by a computed quantity). These are parameters of the model: total functions on reals with no properties assumed.
- `Cases`: the known/present counts, the guard, the case dispatch (`SelectCase`), and the configurations the dispatch does not handle.
- `Resolver`: one function per case branch, plus `Resolve` for the whole chain up to the derived values.
- `Triangle`: classification, Heron's radicand, the final rounding (`Finish`), `CalculateTriangle`, and the properties stated about the whole solver.
- `InputValidation`: `validateInput`. The result of `parseFloat` on the field text is a parameter.
- `Form`: the page state `{sides, angles, inputErrors}`, `HandleInputChange`, `Results`, and the invariant the page keeps.

Behaviour of the code reproduced as written, not corrected:

- **Presence versus knowledge.** The counts test `x !== null && x > 0`, but every case test uses only `x !== null`. The model keeps both notions (`Known`, `Present`).
- **Six configurations fall through.** Exactly 6 of the 19 "three values, at least one side" configurations match no branch and return the "Insufficient information" error. They are:
  - angles k, k+1 with side k+1;
  - sides k, k+1 with angle k+1.
  
  Every configuration with four or more values is handled.
- **SSA writes the wrong slot.**
  - The computed angle is written into the slot of the given angle (`idxOpp`), replacing it.
  - The angle slot at `idxAdj` is never written. A solved SSA triangle therefore shows 0 there.
  - Only the first (acute) solution of the ambiguous case is produced.
- **Classification depends on order.** Equilateral tests only the pairs (a, b) and (b, c). The same three lengths can be Equilateral in one order and Isosceles in another.
- **Rounding can undo the triangle inequality.** The strict triangle inequality holds for the unrounded sides of a solved SSS triangle. The displayed, rounded sides can be degenerate: 1, 1, 1.99999 is shown as 1, 1, 2.

Behaviour of the code that a reader might not expect:

- The five patterns are not mutually exclusive. With four or more values several can match, and the order of the chain decides (`Cases.PatternsOverlap`).
- The 0.01° angle-sum check runs only in the SAS branch.
- SSA angles need not sum to 180, because of the slot error above.

## Model

| member | source | states |
|---|---|---|
| Slots.Third | src/utils/triangleCalculations.js:74 | `3 - i - j` for two distinct indices is the remaining index: it differs from both, and the three indices together are {0, 1, 2}. |
| Slots.Cyc | src/utils/triangleCalculations.js:174-175 | The single wrap-around used for a step of 1 or 2 equals `(i + k) % 3`. |
| Slots.CycReachesOthers | src/utils/triangleCalculations.js:174-178 | `(i+1)%3` and `(i+2)%3` are the two indices other than `i`, distinct from each other; `3 - i - (i+1)%3` is `(i+2)%3`. |
| Numerics.Abs | src/utils/triangleCalculations.js:257 | `Math.abs` is non-negative and equals `x` or `-x`. |
| Numerics.Round | src/utils/triangleCalculations.js:8-10 | The rounded value is a whole number of ten-thousandths within half a step of the input (above by at most half a step, below by less than half a step). |
| Numerics.RoundUnique | src/utils/triangleCalculations.js:8-10 | Any grid point in that window is the rounded value. This characterises the rounding independently of `floor`. |
| Numerics.RoundIdempotent | src/utils/triangleCalculations.js:8-10 | Rounding a rounded value changes nothing. |
| Numerics.RoundMonotone | src/utils/triangleCalculations.js:8-10 | Rounding preserves order. |
| Numerics.RoundZero | src/utils/triangleCalculations.js:268-269 | A `null` slot, used as 0, rounds to 0. |
| Cases.KnownCount | src/utils/triangleCalculations.js:19-20 | The count of `x !== null && x > 0` slots is at most 3. It is 3 exactly when every slot is known and 0 exactly when none is. |
| Cases.KnownCountIsCardinality | src/utils/triangleCalculations.js:19-20 | The filtered length equals the number of indices whose slot is known. |
| Cases.EnoughInformationByCardinality | src/utils/triangleCalculations.js:281-287 | `hasEnoughInformation` holds iff at least three of the six slots are known and at least one known slot is a side. |
| Cases.WellFormedCounts | src/utils/triangleCalculations.js:19-20 | When every non-null value is positive, the known count equals the non-null count. |
| Cases.SelectCase | src/utils/triangleCalculations.js:35-247 | The branch taken is the first in the order SSS (three known sides), SAS, ASA, AAS, SSA whose pattern is present. Each pattern is stated independently as a cyclic rule. Each branch's chosen indices satisfy that rule: the SAS angle and the ASA side are at `3 - i1 - i2`, the AAS side is one of the two angle indices, and the SSA angle is at the opposite side with the adjacent side one step round. When several instances of the chosen pattern match, the first in the source's order is taken. |
| Cases.PatternsByPosition | src/utils/triangleCalculations.js:57-185 | The cyclic pattern rules are exactly the source's three explicit instances per case. |
| Cases.UnmatchedExactlyUnhandled | src/utils/triangleCalculations.js:138-246 | On well-formed input that passes the guard, no branch matches exactly for the six three-value configurations (a0,a1,s1), (a1,a2,s2), (a2,a0,s0), (s0,s1,a1), (s1,s2,a2), (s2,s0,a0). |
| Cases.PatternsOverlap | src/utils/triangleCalculations.js:57-185 | An input with five of the six values exists on which SAS, ASA, AAS and SSA patterns are all present, and SAS wins. |
| Resolver.SolveSSS | src/utils/triangleCalculations.js:35-55 | Rejects with the triangle-inequality error and the input unchanged exactly when some pair of sides is not longer than the third. Otherwise the sides are kept, and angle i is the cosine-rule angle opposite side i. |
| Resolver.SolveSAS | src/utils/triangleCalculations.js:57-97 | The two given sides and the given angle are kept. The missing side is written at the angle's own index, by the cosine rule. The angle at `i1` is the law-of-sines angle from side `i1`, and the angle at `i2` the one from side `i2`. Both are computed from the given angle and the new side. The branch rejects with the angle-sum error exactly when the three angles miss 180 by more than 0.01. |
| Resolver.SupplementAngle | src/utils/triangleCalculations.js:114-116 | The angle at `3 - i1 - i2` is replaced. The two given angles are kept, and the three angles sum to exactly 180. |
| Resolver.SolveASA | src/utils/triangleCalculations.js:98-136 | The angle at the given side's index becomes `180 - a[i1] - a[i2]`, overwriting any value there. The branch rejects exactly when the two given angles reach 180, returning the arrays as overwritten. When solved, the angles sum to 180, the given side is kept, and each other side is the sine-rule side from the given side. |
| Resolver.SolveAAS | src/utils/triangleCalculations.js:137-179 | The third angle, never at the side's index, is replaced as in ASA, with the same rejection. When solved, the angles sum to 180, and the sides one and two steps round from the given side are sine-rule sides. |
| Resolver.SolveSSA | src/utils/triangleCalculations.js:180-239 | Rejects with the no-solution error exactly when the height exceeds the opposite side. Otherwise: the angle slot at the adjacent index is left as it was; the computed angle is written at the given angle's own slot (90 when the height is within 1e-4 below the opposite side, the arcsine otherwise); that angle and the third angle sum to 180 minus the given angle; and the third side is the cosine-rule side from the two given sides and the third angle. |
| Resolver.Resolve | src/utils/triangleCalculations.js:13-247 | The first early return happens exactly when the guard fails. The fallback error happens exactly when the guard passes and no branch matches. Those two errors and the SSS and SSA errors return the input arrays unchanged. A resolved triangle has every side present. The first early return is written as the source's own test on line 22, `sideCount + angleCount < 3 || sideCount === 0`, not as the page's predicate. |
| Resolver.Dispatch | src/utils/triangleCalculations.js:35-247 | For the case `SelectCase` chose, the fallback error is returned exactly when no pattern matched. That error and the SSS and SSA errors carry the input arrays unchanged. The not-enough-values error never comes from here, and a resolved triangle has every side present. |
| Resolver.ResolveSss | src/utils/triangleCalculations.js:35-55 | Past the guard with three known sides: rejected exactly when the strict triangle inequality fails. Otherwise the sides are kept and angle i is the cosine-rule angle opposite side i. |
| Resolver.ResolveAsaAas | src/utils/triangleCalculations.js:99-179 | Past the guard with ASA or AAS selected: rejected exactly when the two given angles reach 180. Otherwise the given side is kept, and every other side is the sine-rule side from the given side, the angle opposite it, and the angle opposite the new side. For AAS these are the sides at `(idxSide+1)%3` and `(idxSide+2)%3`. |
| Resolver.ResolveSas | src/utils/triangleCalculations.js:57-97 | Past the guard with SAS selected: the missing side at the angle's index is the cosine-rule side of the two given sides and the angle. Each remaining angle is the sine-rule angle from its own side. The result is rejected, with the angle-sum error, exactly when the three angles miss 180 by more than 0.01. |
| Resolver.ResolveSsa | src/utils/triangleCalculations.js:180-239 | Past the guard with SSA selected: rejected with the no-solution error on the unchanged input exactly when the height exceeds the opposite side. Otherwise the adjacent angle is kept, and the third side is the cosine-rule side from the two given sides and the third angle. |
| Triangle.Classify | src/utils/triangleCalculations.js:254-265 | Exactly one label holds. Equilateral holds iff pairs (a,b) and (b,c) are within 1e-4. Isosceles holds iff that fails but some pair, including (a,c), is within 1e-4. Scalene holds iff no pair is. |
| Triangle.EqualSidesAreEquilateral | src/utils/triangleCalculations.js:257-258 | Three equal sides are Equilateral. |
| Triangle.EquilateralOuterPairBound | src/utils/triangleCalculations.js:257-258 | In an Equilateral triangle, sides a and c differ by less than 2e-4. |
| Triangle.ClassificationDependsOnOrder | src/utils/triangleCalculations.js:257-265 | The lengths 1, 1.00009, 1.00018 are Equilateral in that order and Isosceles as 1.00009, 1, 1.00018. |
| Triangle.HeronRadicandPositive | src/utils/triangleCalculations.js:250-251 | For sides satisfying the strict triangle inequality, the value under Heron's square root is positive. |
| Triangle.DisplayedAs | src/utils/triangleCalculations.js:8-10 | A computed number has exactly one four-decimal display: two grid values within the rounding window of the same number are equal. |
| Triangle.Finish | src/utils/triangleCalculations.js:249-278 | The result is solved. Every shown side, angle, area and perimeter is a four-decimal grid point within half a step of its unrounded value (a `null` slot counts as 0). The type is classified from the unrounded sides. |
| Triangle.CalculateTriangle | src/utils/triangleCalculations.js:13-279 | Returns the not-enough-values error exactly when `hasEnoughInformation` is false. The guard, fallback, SSS and SSA errors carry the input arrays unchanged. It is solved exactly when the branches resolve the slots. A solved result shows every resolved side and angle (null as 0), the perimeter and Heron's area, each within half a display step and on the four-decimal grid. Its type is the classification of the unrounded sides. |
| Triangle.GuardAgreement | src/utils/triangleCalculations.js:19-30 | `hasEnoughInformation` (lines 281-287) is true exactly when `calculateTriangle`'s own test on line 22 does not take the first early return. The two tests are written separately in the source. |
| Triangle.SssSolvedIffStrictTriangle | src/utils/triangleCalculations.js:35-44 | With three known sides, the result is solved iff the strict triangle inequality holds. Otherwise it is the triangle-inequality error on the unchanged input. |
| Triangle.SssSolvedSides | src/utils/triangleCalculations.js:35-55 | Three known sides satisfying the strict triangle inequality are solved. They have a positive Heron radicand, and each shown side is its given side to within half a display step. |
| Triangle.RoundedSidesCanBeDegenerate | src/utils/triangleCalculations.js:267-278 | Sides 1, 1, 1.99999 are solved but shown as 1, 1, 2, which violates the strict inequality. |
| Triangle.AsaAasAnglesSumTo180 | src/utils/triangleCalculations.js:114-164 | A solved ASA or AAS triangle has unrounded angles summing to exactly 180. Its third angle is 180 minus the two given angles, and it is positive. |
| Triangle.AsaAasRejectIffAnglesTooLarge | src/utils/triangleCalculations.js:114-164 | ASA and AAS fail exactly when the two given angles sum to 180 or more. The error carries the sides unchanged and the angles with the third slot overwritten. |
| Triangle.SasOutcome | src/utils/triangleCalculations.js:57-97 | With SAS selected, the only error `calculateTriangle` returns is the angle-sum one, and a solved triangle shows the cosine-rule side at the given angle's index. |
| Triangle.SsaOutcome | src/utils/triangleCalculations.js:180-239 | With SSA selected, `calculateTriangle` returns the no-solution error on the unchanged input exactly when the height exceeds the opposite side, and otherwise a solved triangle. |
| Triangle.SsaShowsZeroAngle | src/utils/triangleCalculations.js:186-239 | For any SSA input: if it is solved, it shows 0 in the angle slot at the adjacent side. In the right-angle branch it shows 90 in the given angle's slot, which the computed angle overwrites. |
| Triangle.InsufficientExactlyUnhandled | src/utils/triangleCalculations.js:240-246 | On well-formed input, the fallback error (with the input unchanged) is returned exactly when the guard passes and the configuration is one of the six unhandled ones. |
| InputValidation.ValidateInput | src/utils/triangleCalculations.js:290-313 | `null` or `''` gives no validation. NaN or a value ≤ 0 gives "Please enter a positive number.", tested before the angle bound. An angle ≥ 180 gives the angle error. Otherwise the parsed value is accepted, and it is positive and below 180 for angles. Each case is stated in both directions. |
| Form.ErrorKeyInjective | src/pages/CalculatorPage.js:37-38 | The key built from type and letter is one of the six `inputErrors` keys. Distinct fields get distinct keys. |
| Form.HandleInputChange | src/pages/CalculatorPage.js:30-71 | Exactly one error entry is written: the field's own. It is set iff the text is non-empty and invalid. It holds the positivity message for NaN or a value at most 0, and the angle message for an angle of 180 or more. The other array and the other slots are untouched. Empty text clears the slot. A valid value is stored. An invalid value leaves both arrays unchanged. |
| Form.Results | src/pages/CalculatorPage.js:20-27 | A result is shown iff `hasEnoughInformation` holds, and a shown result is never the not-enough-values error. |
| Form.InitialConsistent | src/pages/CalculatorPage.js:7-14 | The initial state is empty, with all six error keys present. |
| Form.HandleInputChangeConsistent | src/pages/CalculatorPage.js:30-71 | Every input change keeps the stored sides positive and the stored angles strictly between 0 and 180, and keeps the six error keys. |
| Form.HandleInputChangeIdempotent | src/pages/CalculatorPage.js:30-71 | Entering the same text into the same field twice has the effect of entering it once. |
| Form.ConsistentIsWellFormed | src/pages/CalculatorPage.js:56-70 | Fields the page stores are well-formed solver input: every non-null value is positive. |
| Form.ResultsOnReachableState | src/pages/CalculatorPage.js:20-27 | On every consistent page state, the fallback error is shown exactly for the six unhandled configurations. |

## Left out

- Numerical values of `Math.sin`, `cos`, `asin`, `acos` and `sqrt`. They are uninterpreted parameters (`Lib`), so no statement depends on them. Nothing is proved about the computed lengths or angles beyond which formula fills which slot. The same holds for the area from Heron's formula.
- The outcome of the SAS 0.01° angle-sum check. It compares values computed by `asin`, so it is decided by `Lib`. The model states the check, not its result.
- Floating-point arithmetic. `+`, `-`, `*` and division by a non-zero constant are exact real operations, so, for example, the ASA/AAS test `180 - a1 - a2 <= 0` and the multiplication by 10000 in `round` are exact. Division by a computed quantity (by a sine, by a computed side, by `2·s1·s2`) goes through the uninterpreted `Lib.div`. `Math.PI` is the decimal literal 3.141592653589793.
- NaN and Infinity. `parseFloat` may return Infinity, which passes validation for a side. Division by zero and out-of-range `acos`/`asin`/`sqrt` give NaN, and NaN comparisons are false. None of these is representable in reals. In particular, the SSA branch's implicit third path is reachable only with NaN, for instance with two infinite sides, where `Infinity - Infinity` is NaN: neither `|h - s| < 1e-4` nor `h < s` holds there. On that path the third side is not written. The final conversions still run: the given angle is converted to radians and back, and the third angle slot becomes `radiansToDegrees` of its radian value, which is 0 when it was null. The model has no such path, because in real arithmetic `h <= s` and not near implies `h < s`.
- `parseFloat` itself. Its result on the field text is a parameter of `ValidateInput` and `HandleInputChange`.
- React's scheduling. `setInputErrors` and `setSides`/`setAngles` are queued separately and the effect runs after rendering. The model applies one input change as one transition and computes the results from the resulting state.
- A `type` argument other than `'side'` or `'angle'` cannot occur, since the page passes only those two. The model's `SlotKind` has exactly these values.
- The page's JSX, `src/components/TriangleDrawing.js` (SVG rendering of the solved triangle), the other pages, navigation, styling and app bootstrap. These contain no solver logic.
- The error message strings are transcribed in `Resolver.Message` and `InputValidation.ErrorMessage` without a contract.

=== FILE: cases.dfy ===
/**
  The solver's entry guard and its case dispatch: how many values are
  known, whether that is enough, and which of SSS, SAS, ASA, AAS or SSA
  the if/else chain of `calculateTriangle` selects.

  Two different notions of "given" are in play, as in the source: the
  counts use `x !== null && x > 0` (Known), while every case test uses
  only `x !== null` (Present).
 */
module Cases {
  import opened Slots

  type Slot = Option<real>

  predicate Present(o: Slot) {
    o.Some?
  }

  /** A slot used as a JavaScript number: `null` counts as 0. */
  function Num(o: Slot): real {
    if o.Some? then o.value else 0.0
  }

  /** `x !== null && x > 0` */
  predicate Known(o: Slot) {
    o.Some? && o.value > 0.0
  }

  /** `t.filter(x => x !== null && x > 0).length` */
  function KnownCount(t: Triple<Slot>): (n: nat)
    ensures n <= 3
    ensures n == 3 <==> forall i: Idx :: Known(t.At(i))
    ensures n == 0 <==> forall i: Idx :: !Known(t.At(i))
  {
    (if Known(t.At(0)) then 1 else 0) + (if Known(t.At(1)) then 1 else 0) + (if Known(t.At(2)) then 1 else 0)
  }

  /** The indices of the known slots. */
  function KnownIndices(t: Triple<Slot>): set<Idx> {
    set i: Idx | Known(t.At(i))
  }

  /** `{i}` when slot `i` is known, otherwise empty. */
  function KnownAt(t: Triple<Slot>, i: Idx): set<Idx> {
    if Known(t.At(i)) then {i} else {}
  }

  /** The known positions, slot by slot. */
  lemma KnownIndicesAsUnion(t: Triple<Slot>)
    ensures KnownIndices(t) == KnownAt(t, 0) + KnownAt(t, 1) + KnownAt(t, 2)
  {
    forall i: Idx ensures i in KnownIndices(t) <==> i in KnownAt(t, 0) + KnownAt(t, 1) + KnownAt(t, 2) {
      if i == 0 {} else if i == 1 {} else {}
    }
  }

  /** The count is the number of known positions. */
  lemma KnownCountIsCardinality(t: Triple<Slot>)
    ensures KnownCount(t) == |KnownIndices(t)|
  {
    KnownIndicesAsUnion(t);
    var s0, s1, s2 := KnownAt(t, 0), KnownAt(t, 1), KnownAt(t, 2);
    assert |s0| == (if Known(t.At(0)) then 1 else 0);
    assert |s1| == (if Known(t.At(1)) then 1 else 0);
    assert |s2| == (if Known(t.At(2)) then 1 else 0);
    assert s0 * s1 == {};
    assert |s0 + s1| == |s0| + |s1|;
    assert (s0 + s1) * s2 == {};
    assert |s0 + s1 + s2| == |s0 + s1| + |s2|;
  }

  /** Number of non-null slots. */
  function PresentCount(t: Triple<Slot>): (n: nat)
    ensures n <= 3
  {
    (if Present(t.At(0)) then 1 else 0) + (if Present(t.At(1)) then 1 else 0) + (if Present(t.At(2)) then 1 else 0)
  }

  /**
    `hasEnoughInformation`: at least three known values, at least one of
    them a side. `calculateTriangle` writes its own, negated, form of the
    test.
   */
  predicate HasEnoughInformation(sides: Triple<Slot>, angles: Triple<Slot>) {
    KnownCount(sides) + KnownCount(angles) >= 3 && KnownCount(sides) >= 1
  }

  /**
    `hasEnoughInformation` in terms of the known positions: at least
    three of the six slots are known, and at least one of them is a side.
   */
  lemma EnoughInformationByCardinality(sides: Triple<Slot>, angles: Triple<Slot>)
    ensures HasEnoughInformation(sides, angles) <==>
      |KnownIndices(sides)| + |KnownIndices(angles)| >= 3 && KnownIndices(sides) != {}
  {
    KnownCountIsCardinality(sides);
    KnownCountIsCardinality(angles);
  }

  /** Every non-null value is positive, as the input form guarantees. */
  predicate WellFormed(sides: Triple<Slot>, angles: Triple<Slot>) {
    forall i: Idx :: (Present(sides.At(i)) ==> Known(sides.At(i))) && (Present(angles.At(i)) ==> Known(angles.At(i)))
  }

  // The four patterns below name each configuration by the index k it
  // is built round. The source lists the three instances of each pattern
  // explicitly; the cyclic form is an independent description of them.

  /** Angle k and the two sides enclosing it. */
  predicate SasAt(s: Triple<Slot>, a: Triple<Slot>, k: Idx) {
    Present(s.At(Cyc(k, 1))) && Present(s.At(Cyc(k, 2))) && Present(a.At(k))
  }

  /** Side k and the two angles at its ends. */
  predicate AsaAt(s: Triple<Slot>, a: Triple<Slot>, k: Idx) {
    Present(a.At(Cyc(k, 1))) && Present(a.At(Cyc(k, 2))) && Present(s.At(k))
  }

  /** Angles k and k+1 with side k, opposite the first of them. */
  predicate AasAt(s: Triple<Slot>, a: Triple<Slot>, k: Idx) {
    Present(a.At(k)) && Present(a.At(Cyc(k, 1))) && Present(s.At(k))
  }

  /** Sides k and k+1 with angle k, opposite the first of them. */
  predicate SsaAt(s: Triple<Slot>, a: Triple<Slot>, k: Idx) {
    Present(s.At(k)) && Present(s.At(Cyc(k, 1))) && Present(a.At(k))
  }

  predicate AnySas(s: Triple<Slot>, a: Triple<Slot>) {
    SasAt(s, a, 0) || SasAt(s, a, 1) || SasAt(s, a, 2)
  }

  predicate AnyAsa(s: Triple<Slot>, a: Triple<Slot>) {
    AsaAt(s, a, 0) || AsaAt(s, a, 1) || AsaAt(s, a, 2)
  }

  predicate AnyAas(s: Triple<Slot>, a: Triple<Slot>) {
    AasAt(s, a, 0) || AasAt(s, a, 1) || AasAt(s, a, 2)
  }

  predicate AnySsa(s: Triple<Slot>, a: Triple<Slot>) {
    SsaAt(s, a, 0) || SsaAt(s, a, 1) || SsaAt(s, a, 2)
  }

  /** The branch of `calculateTriangle` taken, with the indices it chose. */
  datatype Config =
    | SSS
    | SAS(side1: Idx, side2: Idx, angle: Idx)
    | ASA(angle1: Idx, angle2: Idx, side: Idx)
    | AAS(side: Idx, angle1: Idx, angle2: Idx)
    | SSA(angle: Idx, opposite: Idx, adjacent: Idx)
    | Unmatched

  /**
    The if/else chain after the guard: SSS when all three sides are known,
    then the first SAS, ASA, AAS or SSA instance in the source's order.
   */
  function SelectCase(s: Triple<Slot>, a: Triple<Slot>): (c: Config)
    ensures c.SSS? <==> KnownCount(s) == 3
    ensures c.SAS? <==> KnownCount(s) != 3 && AnySas(s, a)
    ensures c.ASA? <==> KnownCount(s) != 3 && !AnySas(s, a) && AnyAsa(s, a)
    ensures c.AAS? <==> KnownCount(s) != 3 && !AnySas(s, a) && !AnyAsa(s, a) && AnyAas(s, a)
    ensures c.SSA? <==> KnownCount(s) != 3 && !AnySas(s, a) && !AnyAsa(s, a) && !AnyAas(s, a) && AnySsa(s, a)
    ensures c.Unmatched? <==>
      KnownCount(s) != 3 && !AnySas(s, a) && !AnyAsa(s, a) && !AnyAas(s, a) && !AnySsa(s, a)
    ensures c.SAS? ==> c.side1 < c.side2 && c.angle == Third(c.side1, c.side2) && SasAt(s, a, c.angle)
    ensures c.ASA? ==> c.angle1 < c.angle2 && c.side == Third(c.angle1, c.angle2) && AsaAt(s, a, c.side)
    ensures c.AAS? ==>
      c.angle1 < c.angle2 && (c.side == c.angle1 || c.side == c.angle2) && AasAt(s, a, c.side)
    ensures c.SSA? ==> c.angle == c.opposite && c.adjacent == Cyc(c.opposite, 1) && SsaAt(s, a, c.opposite)
    // the chosen instance is the first that matches: SAS and ASA try the
    // third index 2, 0, 1 in turn, AAS and SSA try 0, 1, 2
    ensures c.SAS? && c.angle != 2 ==> !SasAt(s, a, 2)
    ensures c.SAS? && c.angle == 1 ==> !SasAt(s, a, 0)
    ensures c.ASA? && c.side != 2 ==> !AsaAt(s, a, 2)
    ensures c.ASA? && c.side == 1 ==> !AsaAt(s, a, 0)
    ensures c.AAS? && c.side != 0 ==> !AasAt(s, a, 0)
    ensures c.AAS? && c.side == 2 ==> !AasAt(s, a, 1)
    ensures c.SSA? && c.opposite != 0 ==> !SsaAt(s, a, 0)
    ensures c.SSA? && c.opposite == 2 ==> !SsaAt(s, a, 1)
  {
    if KnownCount(s) == 3 then SSS
    else if Present(s.x0) && Present(s.x1) && Present(a.x2) then SAS(0, 1, 2)
    else if Present(s.x1) && Present(s.x2) && Present(a.x0) then SAS(1, 2, 0)
    else if Present(s.x0) && Present(s.x2) && Present(a.x1) then SAS(0, 2, 1)
    else if Present(a.x0) && Present(a.x1) && Present(s.x2) then ASA(0, 1, 2)
    else if Present(a.x1) && Present(a.x2) && Present(s.x0) then ASA(1, 2, 0)
    else if Present(a.x0) && Present(a.x2) && Present(s.x1) then ASA(0, 2, 1)
    else if Present(a.x0) && Present(a.x1) && Present(s.x0) then AAS(0, 0, 1)
    else if Present(a.x1) && Present(a.x2) && Present(s.x1) then AAS(1, 1, 2)
    else if Present(a.x0) && Present(a.x2) && Present(s.x2) then AAS(2, 0, 2)
    else if Present(s.x0) && Present(s.x1) && Present(a.x0) then SSA(0, 0, 1)
    else if Present(s.x1) && Present(s.x2) && Present(a.x1) then SSA(1, 1, 2)
    else if Present(s.x0) && Present(s.x2) && Present(a.x2) then SSA(2, 2, 0)
    else Unmatched
  }

  /**
    The configurations that pass the guard yet match no branch, on
    well-formed input: angles k, k+1 with side k+1 (AAS with the side at
    the wrong end) and sides k, k+1 with angle k+1 (SSA with the angle
    opposite the second side).
   */
  predicate AasLikeAt(s: Triple<Slot>, a: Triple<Slot>, k: Idx) {
    Present(a.At(k)) && Present(a.At(Cyc(k, 1))) && Present(s.At(Cyc(k, 1)))
  }

  predicate SsaLikeAt(s: Triple<Slot>, a: Triple<Slot>, k: Idx) {
    Present(s.At(k)) && Present(s.At(Cyc(k, 1))) && Present(a.At(Cyc(k, 1)))
  }

  predicate Unhandled(s: Triple<Slot>, a: Triple<Slot>) {
    && PresentCount(s) + PresentCount(a) == 3
    && (|| AasLikeAt(s, a, 0) || AasLikeAt(s, a, 1) || AasLikeAt(s, a, 2)
        || SsaLikeAt(s, a, 0) || SsaLikeAt(s, a, 1) || SsaLikeAt(s, a, 2))
  }

  /** On well-formed input every non-null value is counted. */
  lemma WellFormedCounts(s: Triple<Slot>, a: Triple<Slot>)
    requires WellFormed(s, a)
    ensures KnownCount(s) == PresentCount(s) && KnownCount(a) == PresentCount(a)
  {
    assert forall i: Idx :: Known(s.At(i)) == Present(s.At(i)) && Known(a.At(i)) == Present(a.At(i));
  }

  /** The cyclic patterns spelled out position by position. */
  lemma PatternsByPosition(s: Triple<Slot>, a: Triple<Slot>)
    ensures AnySas(s, a) <==>
      (s.x1.Some? && s.x2.Some? && a.x0.Some?) || (s.x2.Some? && s.x0.Some? && a.x1.Some?) || (s.x0.Some? && s.x1.Some? && a.x2.Some?)
    ensures AnyAsa(s, a) <==>
      (a.x1.Some? && a.x2.Some? && s.x0.Some?) || (a.x2.Some? && a.x0.Some? && s.x1.Some?) || (a.x0.Some? && a.x1.Some? && s.x2.Some?)
    ensures AnyAas(s, a) <==>
      (a.x0.Some? && a.x1.Some? && s.x0.Some?) || (a.x1.Some? && a.x2.Some? && s.x1.Some?) || (a.x2.Some? && a.x0.Some? && s.x2.Some?)
    ensures AnySsa(s, a) <==>
      (s.x0.Some? && s.x1.Some? && a.x0.Some?) || (s.x1.Some? && s.x2.Some? && a.x1.Some?) || (s.x2.Some? && s.x0.Some? && a.x2.Some?)
    ensures (AasLikeAt(s, a, 0) || AasLikeAt(s, a, 1) || AasLikeAt(s, a, 2)) <==>
      (a.x0.Some? && a.x1.Some? && s.x1.Some?) || (a.x1.Some? && a.x2.Some? && s.x2.Some?) || (a.x2.Some? && a.x0.Some? && s.x0.Some?)
    ensures (SsaLikeAt(s, a, 0) || SsaLikeAt(s, a, 1) || SsaLikeAt(s, a, 2)) <==>
      (s.x0.Some? && s.x1.Some? && a.x1.Some?) || (s.x1.Some? && s.x2.Some? && a.x2.Some?) || (s.x2.Some? && s.x0.Some? && a.x0.Some?)
    ensures PresentCount(s) == (if s.x0.Some? then 1 else 0) + (if s.x1.Some? then 1 else 0) + (if s.x2.Some? then 1 else 0)
    ensures PresentCount(a) == (if a.x0.Some? then 1 else 0) + (if a.x1.Some? then 1 else 0) + (if a.x2.Some? then 1 else 0)
  {
    assert s.At(0) == s.x0 && s.At(1) == s.x1 && s.At(2) == s.x2;
    assert a.At(0) == a.x0 && a.At(1) == a.x1 && a.At(2) == a.x2;
  }

  /**
    On well-formed input that passes the guard, the dispatch falls through
    to "Insufficient information" exactly for the six unhandled
    three-value configurations; every other configuration with at least
    three values and one side is solved by some branch.
   */
  lemma UnmatchedExactlyUnhandled(s: Triple<Slot>, a: Triple<Slot>)
    requires WellFormed(s, a)
    requires HasEnoughInformation(s, a)
    ensures SelectCase(s, a).Unmatched? <==> Unhandled(s, a)
  {
    WellFormedCounts(s, a);
    PatternsByPosition(s, a);
  }

  /**
    The five patterns are not mutually exclusive: with five of the six
    values given (side c left empty), SAS, ASA, AAS and SSA instances are
    all present, so the order of the chain decides the branch.
   */
  lemma PatternsOverlap()
    ensures var s, a := Triple(Some(3.0), Some(4.0), None), Triple(Some(36.87), Some(53.13), Some(90.0));
      AnySas(s, a) && AnyAsa(s, a) && AnyAas(s, a) && AnySsa(s, a) && SelectCase(s, a) == SAS(0, 1, 2)
  {
    var s, a := Triple(Some(3.0), Some(4.0), None), Triple(Some(36.87), Some(53.13), Some(90.0));
    assert SasAt(s, a, 2) && AsaAt(s, a, 0) && AasAt(s, a, 0) && SsaAt(s, a, 0);
  }
}

=== FILE: form.dfy ===
/**
  The calculator page's state and its two transitions: `handleInputChange`
  updates one field and its error entry, and the results effect derives
  the displayed result from the current fields. React's scheduling is not
  modelled: each transition is a function from the old state to the new.
 */
module Form {
  import opened Slots
  import opened Numerics
  import opened Cases
  import opened Resolver
  import opened Triangle
  import opened InputValidation

  /** The `type` argument: `'side'` or `'angle'`. */
  datatype SlotKind = Side | Angle

  /** `sides`, `angles` and `inputErrors` of the page. */
  datatype FormState = FormState(sides: Triple<Slot>, angles: Triple<Slot>, inputErrors: map<string, Option<string>>)

  /** The `inputErrors` key of a field: `side` or `angle`, then `A`, `B` or `C`. */
  function ErrorKey(kind: SlotKind, index: Idx): string {
    (if kind == Side then "side" else "angle") + ["A", "B", "C"][index]
  }

  /** The six keys `inputErrors` starts with. */
  const ErrorKeys: set<string> := {"sideA", "sideB", "sideC", "angleA", "angleB", "angleC"}

  /** Distinct fields have distinct error keys, and every key is one of the six. */
  lemma ErrorKeyInjective(k1: SlotKind, i1: Idx, k2: SlotKind, i2: Idx)
    ensures ErrorKey(k1, i1) == ErrorKey(k2, i2) <==> k1 == k2 && i1 == i2
    ensures ErrorKey(k1, i1) in ErrorKeys
  {
    var e1, e2 := ErrorKey(k1, i1), ErrorKey(k2, i2);
    assert |e1| == (if k1 == Side then 5 else 6) && |e2| == (if k2 == Side then 5 else 6);
    assert e1[|e1| - 1] == ["A", "B", "C"][i1][0];
    assert e2[|e2| - 1] == ["A", "B", "C"][i2][0];
    if k1 == Side {
      assert e1 == (if i1 == 0 then "sideA" else if i1 == 1 then "sideB" else "sideC");
    } else {
      assert e1 == (if i1 == 0 then "angleA" else if i1 == 1 then "angleB" else "angleC");
    }
  }

  /** The page's initial state: every field empty, no errors. */
  function Initial(): FormState {
    FormState(
      Triple(None, None, None),
      Triple(None, None, None),
      map["sideA" := None, "sideB" := None, "sideC" := None, "angleA" := None, "angleB" := None, "angleC" := None])
  }

  /** The array `type` selects. */
  function Values(st: FormState, kind: SlotKind): Triple<Slot> {
    if kind == Side then st.sides else st.angles
  }

  /** `setSides` or `setAngles` with slot `index` of a copy replaced. */
  function SetSlot(st: FormState, kind: SlotKind, index: Idx, v: Slot): FormState {
    if kind == Side then st.(sides := st.sides.With(index, v))
    else st.(angles := st.angles.With(index, v))
  }

  /** The error entry written for a validation: its message if it failed, otherwise null. */
  function ErrorEntry(validation: Option<Validation>): Option<string> {
    if validation.Some? && validation.value.Refused? then Some(ErrorMessage(validation.value.error)) else None
  }

  /**
    `handleInputChange(type, index, value)`: validate, record the error
    entry of this field, then clear the slot on empty text, store the
    value when it validated, and otherwise leave the slots alone.
   */
  function HandleInputChange(st: FormState, kind: SlotKind, index: Idx, value: string, parseFloat: string -> Parsed)
    : (st': FormState)
    // exactly one error entry is written, the one named by type and index
    ensures st'.inputErrors.Keys == st.inputErrors.Keys + {ErrorKey(kind, index)}
    ensures forall k :: k in st.inputErrors && k != ErrorKey(kind, index) ==> st'.inputErrors[k] == st.inputErrors[k]
    ensures st'.inputErrors[ErrorKey(kind, index)].Some? <==>
      value != "" && !(parseFloat(value).Number? && InRange(parseFloat(value).v, kind == Angle))
    // and the message stored is the one validation failed with
    ensures value != "" && !(parseFloat(value).Number? && parseFloat(value).v > 0.0) ==>
      st'.inputErrors[ErrorKey(kind, index)] == Some(ErrorMessage(NotPositive))
    ensures value != "" && kind == Angle && parseFloat(value).Number? && parseFloat(value).v >= 180.0 ==>
      st'.inputErrors[ErrorKey(kind, index)] == Some(ErrorMessage(AngleTooLarge))
    // the other array and the other slots are untouched
    ensures Values(st', if kind == Side then Angle else Side) == Values(st, if kind == Side then Angle else Side)
    ensures forall j: Idx :: j != index ==> Values(st', kind).At(j) == Values(st, kind).At(j)
    // the slot itself
    ensures value == "" ==> Values(st', kind).At(index) == None
    ensures value != "" && parseFloat(value).Number? && InRange(parseFloat(value).v, kind == Angle) ==>
      Values(st', kind).At(index) == Some(parseFloat(value).v)
    ensures value != "" && !(parseFloat(value).Number? && InRange(parseFloat(value).v, kind == Angle)) ==>
      st'.sides == st.sides && st'.angles == st.angles
  {
    var validation := ValidateInput(Some(value), kind == Angle, parseFloat);
    var st1 := st.(inputErrors := st.inputErrors[ErrorKey(kind, index) := ErrorEntry(validation)]);
    if value == "" then SetSlot(st1, kind, index, None)
    else if validation.Some? && validation.value.Accepted? then SetSlot(st1, kind, index, Some(validation.value.value))
    else st1
  }

  /** The results effect: solve when there is enough information, otherwise show nothing. */
  function Results(lib: Lib, st: FormState): (r: Option<Outcome>)
    ensures r.Some? <==> HasEnoughInformation(st.sides, st.angles)
    ensures r.Some? ==> !(r.value.Invalid? && r.value.error == NotEnoughValues)
  {
    if HasEnoughInformation(st.sides, st.angles) then Some(CalculateTriangle(lib, st.sides, st.angles)) else None
  }

  /**
    What the page keeps true: every stored side is positive, every stored
    angle lies strictly between 0 and 180, and the error map has exactly
    the six keys.
   */
  predicate Consistent(st: FormState) {
    && (forall i: Idx :: st.sides.At(i).Some? ==> InRange(st.sides.At(i).value, false))
    && (forall i: Idx :: st.angles.At(i).Some? ==> InRange(st.angles.At(i).value, true))
    && st.inputErrors.Keys == ErrorKeys
  }

  lemma InitialConsistent()
    ensures Consistent(Initial())
  {
  }

  /** Every input change keeps the page consistent. */
  lemma HandleInputChangeConsistent(st: FormState, kind: SlotKind, index: Idx, value: string, parseFloat: string -> Parsed)
    requires Consistent(st)
    ensures Consistent(HandleInputChange(st, kind, index, value, parseFloat))
  {
    ErrorKeyInjective(kind, index, kind, index);
    var st' := HandleInputChange(st, kind, index, value, parseFloat);
    forall i: Idx
      ensures st'.sides.At(i).Some? ==> InRange(st'.sides.At(i).value, false)
      ensures st'.angles.At(i).Some? ==> InRange(st'.angles.At(i).value, true)
    {
      if i != index {
        assert Values(st', kind).At(i) == Values(st, kind).At(i);
      }
    }
  }

  /** Typing the same text into the same field twice has the effect of typing it once. */
  lemma HandleInputChangeIdempotent(st: FormState, kind: SlotKind, index: Idx, value: string, parseFloat: string -> Parsed)
    ensures var once := HandleInputChange(st, kind, index, value, parseFloat);
      HandleInputChange(once, kind, index, value, parseFloat) == once
  {
    var once := HandleInputChange(st, kind, index, value, parseFloat);
    var twice := HandleInputChange(once, kind, index, value, parseFloat);
    assert twice.inputErrors == once.inputErrors;
    TripleExtensional(twice.sides, once.sides);
    TripleExtensional(twice.angles, once.angles);
  }

  /** A consistent page only ever hands the solver well-formed input. */
  lemma ConsistentIsWellFormed(st: FormState)
    requires Consistent(st)
    ensures WellFormed(st.sides, st.angles)
  {
  }

  /**
    On any state the page can reach, a result is shown exactly when there
    is enough information, and it is the fallback "Insufficient
    information" error exactly for the six unhandled configurations.
   */
  lemma ResultsOnReachableState(lib: Lib, st: FormState)
    requires Consistent(st)
    ensures Results(lib, st) == Some(Invalid(InsufficientInformation, st.sides, st.angles)) <==>
      HasEnoughInformation(st.sides, st.angles) && Unhandled(st.sides, st.angles)
  {
    ConsistentIsWellFormed(st);
    InsufficientExactlyUnhandled(lib, st.sides, st.angles);
  }
}

=== FILE: numerics.dfy ===
/**
  The numeric vocabulary of the triangle solver: degree/radian conversion,
  the 1e-4 equality tolerance, four-decimal display rounding, and the
  floating-point library routines the solver calls but whose values are
  not modelled.
 */
module Numerics {

  /**
    The `Math` routines the solver calls, as uninterpreted total functions
    on reals. `div` is floating-point division by a non-literal quantity
    (a computed value or a given side), which may be zero; division by a non-zero literal is written as real division.
   */
  datatype Lib = Lib(
    sin: real -> real,
    cos: real -> real,
    asin: real -> real,
    acos: real -> real,
    sqrt: real -> real,
    div: (real, real) -> real)

  /** `Math.PI` to the digits JavaScript prints. */
  const Pi: real := 3.141592653589793

  function DegToRad(d: real): real {
    d * Pi / 180.0
  }

  function RadToDeg(r: real): real {
    r * 180.0 / Pi
  }

  /**
    Helper for the SSA branch, true of exact reals only: converting
    degrees to radians and back, or radians to degrees and back, is the
    identity.
   */
  lemma DegRadRoundTrip(d: real, r: real)
    ensures RadToDeg(DegToRad(d)) == d
    ensures DegToRad(RadToDeg(r)) == r
  {
  }

  /** Helper for the SSA branch, true of exact reals only: `Math.PI / 2` is 90 degrees. */
  lemma RightAngleInDegrees()
    ensures RadToDeg(Pi / 2.0) == 90.0
  {
  }

  /**
    Helper for the SSA branch, true of exact reals only: the angle
    `PI - x - y` (radians) in degrees is 180 minus the two angles in
    degrees.
   */
  lemma SupplementInDegrees(x: real, y: real)
    ensures RadToDeg(Pi - x - y) == 180.0 - RadToDeg(x) - RadToDeg(y)
  {
  }

  function Abs(x: real): (r: real)
    ensures r >= 0.0
    ensures r == x || r == -x
  {
    if x < 0.0 then -x else x
  }

  /** The absolute tolerance `0.0001` used for equal sides and for the SSA right angle. */
  const Tolerance: real := 0.0001

  /** `Math.abs(x - y) < 0.0001` */
  predicate Near(x: real, y: real) {
    Abs(x - y) < Tolerance
  }

  /** Display precision: outputs are shown to four decimals. */
  const Scale: real := 10000.0

  /** Half a display step: the largest error rounding introduces. */
  const HalfStep: real := 0.00005

  /** `r` is a whole number of ten-thousandths. */
  predicate OnGrid(r: real) {
    (r * Scale).Floor as real == r * Scale
  }

  /**
    `Math.round(x * 10000) / 10000`. `Math.round` rounds half-way cases up,
    that is it is `floor(y + 0.5)`.
   */
  function Round(x: real): (r: real)
    ensures OnGrid(r)
    ensures x - HalfStep < r <= x + HalfStep
  {
    var n := (x * Scale + 0.5).Floor;
    assert (n as real / Scale) * Scale == n as real;
    n as real / Scale
  }

  /**
    Round is the only grid point in the half-open window of half a step
    each side of `x`: an independent characterisation of the rounding.
   */
  lemma RoundUnique(x: real, r: real)
    requires OnGrid(r)
    requires x - HalfStep < r <= x + HalfStep
    ensures r == Round(x)
  {
    var q := Round(x);
    var n := (r * Scale).Floor;
    var m := (q * Scale).Floor;
    assert n as real == r * Scale && m as real == q * Scale;
    assert -1.0 < n as real - m as real < 1.0;
    assert n == m;
  }

  /** Rounding an already rounded value changes nothing. */
  lemma RoundIdempotent(x: real)
    ensures Round(Round(x)) == Round(x)
  {
    var r := Round(x);
    RoundUnique(r, r);
  }

  /** Rounding preserves order: it never swaps two values. */
  lemma RoundMonotone(x: real, y: real)
    requires x <= y
    ensures Round(x) <= Round(y)
  {
    var a, b := x * Scale + 0.5, y * Scale + 0.5;
    var n, m := a.Floor, b.Floor;
    assert n as real <= a <= b < m as real + 1.0;
    assert n <= m;
    assert Round(x) == n as real / Scale && Round(y) == m as real / Scale;
  }

  /** A JavaScript `null` used as a number is 0, and 0 rounds to 0. */
  lemma RoundZero()
    ensures Round(0.0) == 0.0
  {
    RoundUnique(0.0, 0.0);
  }
}

=== FILE: resolve.dfy ===
/**
  The five case branches of `calculateTriangle` and its two early
  returns, up to (not including) the area, perimeter, classification and
  rounding. Each branch works on copies of the slot arrays and either
  fills in slots or returns an error together with the arrays as they are
  at that point.
 */
module Resolver {
  import opened Slots
  import opened Numerics
  import opened Cases

  /** One variant per error message of `calculateTriangle`. */
  datatype Failure =
    | NotEnoughValues
    | TriangleInequality
    | AngleSumOff
    | AnglesTooLarge
    | NoSolution
    | InsufficientInformation

  function Message(f: Failure): string {
    match f
    case NotEnoughValues => "Please enter at least 3 values, including at least one side."
    case TriangleInequality => "Invalid triangle: The sum of any two sides must be greater than the third side."
    case AngleSumOff => "Invalid triangle: The calculated angles don't sum to 180 degrees."
    case AnglesTooLarge => "Invalid triangle: The sum of the two given angles must be less than 180 degrees."
    case NoSolution => "Invalid triangle: No solution exists for the given values."
    case InsufficientInformation =>
      "Insufficient information: Please provide at least 3 values, including at least one side."
  }

  /** The working copies `s` and `a` of the sides and angles. */
  datatype Work = Work(sides: Triple<Slot>, angles: Triple<Slot>)

  /** A branch either completes the slots or returns an error with the slots so far. */
  datatype Step = Resolved(w: Work) | Rejected(reason: Failure, w: Work)

  /** Each side is shorter than the other two together. */
  predicate StrictTriangle(x: real, y: real, z: real) {
    x + y > z && x + z > y && y + z > x
  }

  /** The sum of the three angle slots, `a[0] + a[1] + a[2]`. */
  function AngleSum(t: Triple<Slot>): real {
    Num(t.x0) + Num(t.x1) + Num(t.x2)
  }

  /** Law of cosines for the angle opposite `opp`, in degrees. */
  function CosineRuleAngle(lib: Lib, adj1: real, adj2: real, opp: real): real {
    RadToDeg(lib.acos(lib.div(adj1 * adj1 + adj2 * adj2 - opp * opp, 2.0 * adj1 * adj2)))
  }

  /** Law of cosines for the side opposite an angle given in radians. */
  function CosineRuleSide(lib: Lib, adj1: real, adj2: real, rad: real): real {
    lib.sqrt(adj1 * adj1 + adj2 * adj2 - 2.0 * adj1 * adj2 * lib.cos(rad))
  }

  /** Law of sines: the side opposite `target`, from a side and its opposite angle (degrees). */
  function SineRuleSide(lib: Lib, side: real, opposite: real, target: real): real {
    lib.div(side, lib.sin(DegToRad(opposite))) * lib.sin(DegToRad(target))
  }

  /** Law of sines: the angle (degrees) opposite `side`, from a known angle (degrees) and the side `opposite` it. */
  function SineRuleAngle(lib: Lib, side: real, angle: real, opposite: real): real {
    RadToDeg(lib.asin(lib.div(side * lib.sin(DegToRad(angle)), opposite)))
  }

  /** The value of a slot the case test found non-null. */
  function Val(t: Triple<Slot>, i: Idx): real
    requires Present(t.At(i))
  {
    t.At(i).value
  }

  /**
    SSS: reject unless every pair of sides is longer than the third, then
    compute each angle from the three sides.
   */
  function SolveSSS(lib: Lib, w: Work): (r: Step)
    requires Known(w.sides.At(0)) && Known(w.sides.At(1)) && Known(w.sides.At(2))
    ensures r.Rejected? <==> !StrictTriangle(Val(w.sides, 0), Val(w.sides, 1), Val(w.sides, 2))
    ensures r.Rejected? ==> r == Rejected(TriangleInequality, w)
    ensures r.Resolved? ==> r.w.sides == w.sides
    ensures r.Resolved? ==> forall i: Idx ::
      r.w.angles.At(i) == Some(CosineRuleAngle(lib, Val(w.sides, Cyc(i, 1)), Val(w.sides, Cyc(i, 2)), Val(w.sides, i)))
  {
    var s0, s1, s2 := Val(w.sides, 0), Val(w.sides, 1), Val(w.sides, 2);
    if s0 + s1 <= s2 || s0 + s2 <= s1 || s1 + s2 <= s0 then
      Rejected(TriangleInequality, w)
    else
      var angles := Triple(
        Some(CosineRuleAngle(lib, s1, s2, s0)),
        Some(CosineRuleAngle(lib, s0, s2, s1)),
        Some(CosineRuleAngle(lib, s0, s1, s2)));
      assert CosineRuleAngle(lib, s2, s0, s1) == CosineRuleAngle(lib, s0, s2, s1) by {
        assert s2 * s2 + s0 * s0 - s1 * s1 == s0 * s0 + s2 * s2 - s1 * s1 && 2.0 * s2 * s0 == 2.0 * s0 * s2;
      }
      CycTable();
      Resolved(Work(w.sides, angles))
  }

  /**
    SAS: sides `i1`, `i2` and the angle between them, which sits at the
    third index. The missing side is written at `3 - i1 - i2`, the
    angle's own index; the two other angles come from the law of sines,
    and the branch rejects when the three angles miss 180 by more than
    0.01 degrees.
   */
  function SolveSAS(lib: Lib, w: Work, i1: Idx, i2: Idx, ia: Idx): (r: Step)
    requires i1 != i2 && ia == Third(i1, i2)
    requires Present(w.sides.At(i1)) && Present(w.sides.At(i2)) && Present(w.angles.At(ia))
    ensures r.w.sides.At(i1) == w.sides.At(i1) && r.w.sides.At(i2) == w.sides.At(i2)
    ensures r.w.sides.At(ia) ==
      Some(CosineRuleSide(lib, Val(w.sides, i1), Val(w.sides, i2), DegToRad(Val(w.angles, ia))))
    ensures r.w.angles.At(ia) == w.angles.At(ia)
    // each law-of-sines angle sits opposite the side it was computed from
    ensures r.w.angles.At(i1) == Some(SineRuleAngle(lib, Val(w.sides, i1), Val(w.angles, ia), Val(r.w.sides, ia)))
    ensures r.w.angles.At(i2) == Some(SineRuleAngle(lib, Val(w.sides, i2), Val(w.angles, ia), Val(r.w.sides, ia)))
    ensures forall i: Idx :: Present(r.w.angles.At(i))
    ensures r.Rejected? <==> Abs(AngleSum(r.w.angles) - 180.0) > 0.01
    ensures r.Rejected? ==> r.reason == AngleSumOff
  {
    var x1, x2 := Val(w.sides, i1), Val(w.sides, i2);
    var angleRad := DegToRad(Val(w.angles, ia));
    var x3 := CosineRuleSide(lib, x1, x2, angleRad);
    var sides := w.sides.With(ia, Some(x3));
    var angles := w.angles
      .With(i1, Some(SineRuleAngle(lib, x1, Val(w.angles, ia), x3)))
      .With(i2, Some(SineRuleAngle(lib, x2, Val(w.angles, ia), x3)));
    assert angles.x0.Some? && angles.x1.Some? && angles.x2.Some? by {
      assert angles.At(0).Some? && angles.At(1).Some? && angles.At(2).Some?;
    }
    var solved := Work(sides, angles);
    if Abs(angles.x0.value + angles.x1.value + angles.x2.value - 180.0) > 0.01 then
      Rejected(AngleSumOff, solved)
    else
      Resolved(solved)
  }

  /**
    The step ASA and AAS share: the angle at `3 - i1 - i2` becomes
    `180 - a[i1] - a[i2]`, replacing whatever was there.
   */
  function SupplementAngle(angles: Triple<Slot>, i1: Idx, i2: Idx): (t: Triple<Slot>)
    requires i1 != i2 && Present(angles.At(i1)) && Present(angles.At(i2))
    ensures t.At(i1) == angles.At(i1) && t.At(i2) == angles.At(i2)
    ensures t.At(Third(i1, i2)).Some?
    ensures AngleSum(t) == 180.0
  {
    var t := angles.With(Third(i1, i2), Some(180.0 - Val(angles, i1) - Val(angles, i2)));
    assert t.At(0).Some? && t.At(1).Some? && t.At(2).Some?;
    assert {i1, i2, Third(i1, i2)} == {0, 1, 2};
    t
  }

  /**
    ASA: angles `i1`, `i2` and the side between them, at the third index.
    The angle at that index is recomputed from the other two; a
    non-positive result rejects, otherwise the two missing sides come from
    the law of sines using the given side.
   */
  function SolveASA(lib: Lib, w: Work, i1: Idx, i2: Idx, ks: Idx): (r: Step)
    requires i1 != i2 && ks == Third(i1, i2)
    requires Present(w.angles.At(i1)) && Present(w.angles.At(i2)) && Present(w.sides.At(ks))
    ensures r.w.angles.At(ks) == Some(180.0 - Val(w.angles, i1) - Val(w.angles, i2))
    ensures r.w.angles.At(i1) == w.angles.At(i1) && r.w.angles.At(i2) == w.angles.At(i2)
    ensures r.Rejected? <==> Val(w.angles, i1) + Val(w.angles, i2) >= 180.0
    ensures r.Rejected? ==> r == Rejected(AnglesTooLarge, Work(w.sides, r.w.angles))
    ensures r.Resolved? ==> AngleSum(r.w.angles) == 180.0
    ensures r.Resolved? ==> r.w.sides.At(ks) == w.sides.At(ks)
    ensures r.Resolved? ==> forall i: Idx :: i != ks ==>
      r.w.sides.At(i) == Some(SineRuleSide(lib, Val(w.sides, ks), Val(r.w.angles, ks), Val(r.w.angles, i)))
  {
    var angles := SupplementAngle(w.angles, i1, i2);
    if Val(angles, ks) <= 0.0 then
      Rejected(AnglesTooLarge, Work(w.sides, angles))
    else
      var known := Val(w.sides, ks);
      var sides := w.sides
        .With(i1, Some(SineRuleSide(lib, known, Val(angles, ks), Val(angles, i1))))
        .With(i2, Some(SineRuleSide(lib, known, Val(angles, ks), Val(angles, i2))));
      Resolved(Work(sides, angles))
  }

  /**
    AAS: angles `i1`, `i2` and a side at one of those two indices. The
    third angle is recomputed as in ASA; the sides one and two steps round
    from the given side, `(is + 1) % 3` and `(is + 2) % 3`, come from the
    law of sines.
   */
  function SolveAAS(lib: Lib, w: Work, ks: Idx, i1: Idx, i2: Idx): (r: Step)
    requires i1 != i2 && (ks == i1 || ks == i2)
    requires Present(w.angles.At(i1)) && Present(w.angles.At(i2)) && Present(w.sides.At(ks))
    ensures Third(i1, i2) != ks
    ensures r.w.angles.At(Third(i1, i2)) == Some(180.0 - Val(w.angles, i1) - Val(w.angles, i2))
    ensures r.w.angles.At(i1) == w.angles.At(i1) && r.w.angles.At(i2) == w.angles.At(i2)
    ensures r.Rejected? <==> Val(w.angles, i1) + Val(w.angles, i2) >= 180.0
    ensures r.Rejected? ==> r == Rejected(AnglesTooLarge, Work(w.sides, r.w.angles))
    ensures r.Resolved? ==> AngleSum(r.w.angles) == 180.0
    ensures r.Resolved? ==> r.w.sides.At(ks) == w.sides.At(ks)
    ensures r.Resolved? ==> forall i: Idx :: i != ks ==>
      r.w.sides.At(i) == Some(SineRuleSide(lib, Val(w.sides, ks), Val(r.w.angles, ks), Val(r.w.angles, i)))
  {
    var angles := SupplementAngle(w.angles, i1, i2);
    if Val(angles, Third(i1, i2)) <= 0.0 then
      Rejected(AnglesTooLarge, Work(w.sides, angles))
    else
      var known := Val(w.sides, ks);
      CycReachesOthers(ks);
      var sides := w.sides
        .With(Cyc(ks, 1), Some(SineRuleSide(lib, known, Val(angles, ks), Val(angles, Cyc(ks, 1)))))
        .With(Cyc(ks, 2), Some(SineRuleSide(lib, known, Val(angles, ks), Val(angles, Cyc(ks, 2)))));
      Resolved(Work(sides, angles))
  }

  /** The height `s[adj] * sin(a[angle])` the SSA branch compares with the opposite side. */
  function Height(lib: Lib, adjacent: real, angle: real): real {
    adjacent * lib.sin(DegToRad(angle))
  }

  /**
    SSA: sides `opp` and `adj = opp + 1 (mod 3)` with the angle at `opp`.
    Rejects when the height exceeds the opposite side. Otherwise the
    computed angle is written at `opp`, over the given angle, in the
    right-angle branch as 90 degrees and otherwise as an arcsine; the
    third angle is filled in as the supplement and the third side from it
    by the law of cosines, and the angle slot at `adj` is left as it was.
   */
  function SolveSSA(lib: Lib, w: Work, ia: Idx, opp: Idx, adj: Idx): (r: Step)
    requires ia == opp && adj == Cyc(opp, 1)
    requires Present(w.sides.At(opp)) && Present(w.sides.At(adj)) && Present(w.angles.At(ia))
    ensures adj != opp && Third(opp, adj) != adj
    ensures var h := Height(lib, Val(w.sides, adj), Val(w.angles, ia));
      r.Rejected? <==> h > Val(w.sides, opp)
    ensures r.Rejected? ==> r == Rejected(NoSolution, w)
    ensures r.Resolved? ==> r.w.angles.At(adj) == w.angles.At(adj)
    ensures r.Resolved? ==> r.w.sides.At(opp) == w.sides.At(opp) && r.w.sides.At(adj) == w.sides.At(adj)
    ensures r.Resolved? ==> Present(r.w.angles.At(opp)) && Present(r.w.angles.At(Third(opp, adj)))
    ensures r.Resolved? ==>
      r.w.sides.At(Third(opp, adj)) ==
        Some(CosineRuleSide(lib, Val(w.sides, opp), Val(w.sides, adj), DegToRad(Val(r.w.angles, Third(opp, adj)))))
    ensures r.Resolved? ==>
      Val(r.w.angles, opp) + Val(r.w.angles, Third(opp, adj)) == 180.0 - Val(w.angles, ia)
    ensures var h := Height(lib, Val(w.sides, adj), Val(w.angles, ia));
      r.Resolved? && Val(w.sides, opp) - Tolerance < h ==> r.w.angles.At(opp) == Some(90.0)
    ensures var h := Height(lib, Val(w.sides, adj), Val(w.angles, ia));
      r.Resolved? && h <= Val(w.sides, opp) - Tolerance ==>
        r.w.angles.At(opp) == Some(RadToDeg(lib.asin(lib.div(h, Val(w.sides, opp)))))
  {
    CycReachesOthers(opp);
    var angleRad := DegToRad(Val(w.angles, ia));
    var so, sa := Val(w.sides, opp), Val(w.sides, adj);
    var h := sa * lib.sin(angleRad);
    if h > so then
      Rejected(NoSolution, w)
    else
      var i3 := Third(opp, adj);
      // In real arithmetic h <= so and not near means h < so, so the
      // source's `else if (h < s[idxOpp])` always holds here.
      var oppRad := if Near(h, so) then Pi / 2.0 else lib.asin(lib.div(h, so));
      var thirdRad := Pi - angleRad - oppRad;
      var sides := w.sides.With(i3, Some(CosineRuleSide(lib, so, sa, thirdRad)));
      var angles := w.angles.With(opp, Some(RadToDeg(oppRad))).With(i3, Some(RadToDeg(thirdRad)));
      SupplementInDegrees(angleRad, oppRad);
      DegRadRoundTrip(Val(w.angles, ia), thirdRad);
      RightAngleInDegrees();
      Resolved(Work(sides, angles))
  }

  /**
    `calculateTriangle` up to the derived values: the guard, the case
    dispatch, and the chosen branch.
   */
  function Resolve(lib: Lib, s: Triple<Slot>, a: Triple<Slot>): (r: Step)
    ensures (r.Rejected? && r.reason == NotEnoughValues) <==> !HasEnoughInformation(s, a)
    ensures (r.Rejected? && r.reason == InsufficientInformation) <==>
      HasEnoughInformation(s, a) && SelectCase(s, a).Unmatched?
    ensures r.Rejected? && r.reason in {NotEnoughValues, InsufficientInformation, TriangleInequality, NoSolution} ==>
      r.w == Work(s, a)
    ensures r.Resolved? ==> forall i: Idx :: Present(r.w.sides.At(i))
  {
    var w := Work(s, a);
    // the source's own test, `sideCount + angleCount < 3 || sideCount === 0`
    if KnownCount(s) + KnownCount(a) < 3 || KnownCount(s) == 0 then
      Rejected(NotEnoughValues, w)
    else
      Dispatch(lib, w, SelectCase(s, a))
  }

  /**
    The if/else chain after the guard: run the branch `SelectCase` chose,
    or return the fallback error when none matched.
   */
  function Dispatch(lib: Lib, w: Work, c: Config): (r: Step)
    requires c == SelectCase(w.sides, w.angles)
    ensures r.Rejected? ==> r.reason != NotEnoughValues
    ensures (r.Rejected? && r.reason == InsufficientInformation) <==> c.Unmatched?
    ensures r.Rejected? && r.reason in {InsufficientInformation, TriangleInequality, NoSolution} ==> r.w == w
    ensures r.Resolved? ==> forall i: Idx :: Present(r.w.sides.At(i))
  {
    match c
    case SSS => SolveSSS(lib, w)
    case SAS(i1, i2, ia) => SolveSAS(lib, w, i1, i2, ia)
    case ASA(i1, i2, ks) => SolveASA(lib, w, i1, i2, ks)
    case AAS(ks, i1, i2) => SolveAAS(lib, w, ks, i1, i2)
    case SSA(ia, opp, adj) => SolveSSA(lib, w, ia, opp, adj)
    case Unmatched => Rejected(InsufficientInformation, w)
  }

  /**
    Past the guard, three known sides are rejected exactly when the strict
    triangle inequality fails, and otherwise keep their sides and get
    each angle by the law of cosines from the sides.
   */
  lemma ResolveSss(lib: Lib, s: Triple<Slot>, a: Triple<Slot>)
    requires HasEnoughInformation(s, a) && SelectCase(s, a).SSS?
    ensures var r := Resolve(lib, s, a);
      r.Rejected? <==> !StrictTriangle(Val(s, 0), Val(s, 1), Val(s, 2))
    ensures var r := Resolve(lib, s, a);
      r.Resolved? ==> r.w.sides == s && forall i: Idx ::
        r.w.angles.At(i) == Some(CosineRuleAngle(lib, Val(s, Cyc(i, 1)), Val(s, Cyc(i, 2)), Val(s, i)))
  {
    assert Resolve(lib, s, a) == SolveSSS(lib, Work(s, a));
  }

  /**
    Past the guard, ASA and AAS inputs are rejected exactly when the two
    given angles reach 180; otherwise the given side is kept and the two
    other sides come from the law of sines, using the given side and the
    angle opposite it.
   */
  lemma ResolveAsaAas(lib: Lib, s: Triple<Slot>, a: Triple<Slot>)
    requires HasEnoughInformation(s, a) && (SelectCase(s, a).ASA? || SelectCase(s, a).AAS?)
    ensures var c, r := SelectCase(s, a), Resolve(lib, s, a);
      r.Rejected? <==> Val(a, c.angle1) + Val(a, c.angle2) >= 180.0
    ensures var c, r := SelectCase(s, a), Resolve(lib, s, a);
      r.Resolved? ==> r.w.sides.At(c.side) == s.At(c.side) && forall i: Idx :: i != c.side ==>
        r.w.sides.At(i) == Some(SineRuleSide(lib, Val(s, c.side), Val(r.w.angles, c.side), Val(r.w.angles, i)))
  {
    var c := SelectCase(s, a);
    if c.ASA? {
      assert Resolve(lib, s, a) == SolveASA(lib, Work(s, a), c.angle1, c.angle2, c.side);
    } else {
      assert Resolve(lib, s, a) == SolveAAS(lib, Work(s, a), c.side, c.angle1, c.angle2);
    }
  }

  /**
    Past the guard, an SAS input gets the missing side by the cosine rule
    and each remaining angle by the sine rule from its own side, and is
    rejected exactly when the angle-sum check fails.
   */
  lemma ResolveSas(lib: Lib, s: Triple<Slot>, a: Triple<Slot>)
    requires HasEnoughInformation(s, a) && SelectCase(s, a).SAS?
    ensures var c, r := SelectCase(s, a), Resolve(lib, s, a);
      && r.w.sides.At(c.angle) == Some(CosineRuleSide(lib, Val(s, c.side1), Val(s, c.side2), DegToRad(Val(a, c.angle))))
      && r.w.angles.At(c.side1) == Some(SineRuleAngle(lib, Val(s, c.side1), Val(a, c.angle), Val(r.w.sides, c.angle)))
      && r.w.angles.At(c.side2) == Some(SineRuleAngle(lib, Val(s, c.side2), Val(a, c.angle), Val(r.w.sides, c.angle)))
      && (r.Rejected? <==> Abs(AngleSum(r.w.angles) - 180.0) > 0.01)
      && (r.Rejected? ==> r.reason == AngleSumOff)
  {
    var c := SelectCase(s, a);
    assert Resolve(lib, s, a) == SolveSAS(lib, Work(s, a), c.side1, c.side2, c.angle);
  }

  /**
    Past the guard, an SSA input has no solution exactly when the height
    exceeds the opposite side; otherwise the adjacent angle is kept and
    the third side follows from the third angle by the cosine rule.
   */
  lemma ResolveSsa(lib: Lib, s: Triple<Slot>, a: Triple<Slot>)
    requires HasEnoughInformation(s, a) && SelectCase(s, a).SSA?
    ensures var c, r := SelectCase(s, a), Resolve(lib, s, a);
      && (r.Rejected? <==> Height(lib, Val(s, c.adjacent), Val(a, c.angle)) > Val(s, c.opposite))
      && (r.Rejected? ==> r == Rejected(NoSolution, Work(s, a)))
      && (r.Resolved? ==> r.w.angles.At(c.adjacent) == a.At(c.adjacent))
    ensures var c, r := SelectCase(s, a), Resolve(lib, s, a);
      var k := Third(c.opposite, c.adjacent);
      r.Resolved? ==> (
        && Present(r.w.angles.At(k))
        && r.w.sides.At(k) == Some(CosineRuleSide(lib, Val(s, c.opposite), Val(s, c.adjacent), DegToRad(Val(r.w.angles, k)))))
  {
    var c := SelectCase(s, a);
    assert Resolve(lib, s, a) == SolveSSA(lib, Work(s, a), c.angle, c.opposite, c.adjacent);
  }
}

=== FILE: slots.dfy ===
/**
  Three-element slot arrays as the triangle solver uses them: `sides[0..2]`
  and `angles[0..2]`, where angle i is opposite side i. A slot is either
  `null` (None) or a number (Some).
 */
module Slots {

  datatype Option<+T> = None | Some(value: T)

  /** A position in a three-element slot array. */
  type Idx = i: int | 0 <= i < 3

  /** A JavaScript array of exactly three slots, copied by value. */
  datatype Triple<T> = Triple(x0: T, x1: T, x2: T) {

    function At(i: Idx): T {
      if i == 0 then x0 else if i == 1 then x1 else x2
    }

    /** The array with slot `i` overwritten by `v` (`t[i] = v` on a copy). */
    function With(i: Idx, v: T): (t: Triple<T>)
      ensures t.At(i) == v
      ensures forall j: Idx :: j != i ==> t.At(j) == At(j)
    {
      if i == 0 then Triple(v, x1, x2)
      else if i == 1 then Triple(x0, v, x2)
      else Triple(x0, x1, v)
    }
  }

  /** Two triples are equal exactly when they agree at every index. */
  lemma TripleExtensional<T>(t: Triple<T>, u: Triple<T>)
    requires forall i: Idx :: t.At(i) == u.At(i)
    ensures t == u
  {
    assert t.At(0) == u.At(0) && t.At(1) == u.At(1) && t.At(2) == u.At(2);
  }

  /**
    The index of a triple not used by `i` and `j`, written `3 - i - j` in
    the solver's case branches.
   */
  function Third(i: Idx, j: Idx): (k: Idx)
    requires i != j
    ensures k != i && k != j
    ensures {i, j, k} == {0, 1, 2}
  {
    3 - i - j
  }

  /**
    The index `k` steps further round the triangle, `(i + k) % 3`, written
    as a single wrap-around since the solver only steps by 1 or 2.
   */
  function Cyc(i: Idx, k: nat): (r: Idx)
    requires k < 3
    ensures r == (i + k) % 3
  {
    if i + k < 3 then i + k else i + k - 3
  }

  /** One and two steps round the triangle reach the two other indices. */
  lemma CycReachesOthers(i: Idx)
    ensures Cyc(i, 1) != i && Cyc(i, 2) != i && Cyc(i, 1) != Cyc(i, 2)
    ensures {i, Cyc(i, 1), Cyc(i, 2)} == {0, 1, 2}
    ensures Third(i, Cyc(i, 1)) == Cyc(i, 2)
  {
  }

  /** The values of `(i + k) % 3` the solver's index arithmetic uses. */
  lemma CycTable()
    ensures Cyc(0, 1) == 1 && Cyc(0, 2) == 2
    ensures Cyc(1, 1) == 2 && Cyc(1, 2) == 0
    ensures Cyc(2, 1) == 0 && Cyc(2, 2) == 1
  {
  }
}

=== FILE: triangle.dfy ===
/**
  `calculateTriangle` as a whole: the resolved slots are turned into the
  displayed result (area by Heron's formula, perimeter, triangle type,
  everything rounded to four decimals), and the properties the solver
  promises are stated about the complete function.
 */
module Triangle {
  import opened Slots
  import opened Numerics
  import opened Cases
  import opened Resolver

  datatype TriangleType = Equilateral | Isosceles | Scalene

  /**
    Classification of the unrounded sides. Equilateral tests the pairs
    (0, 1) and (1, 2) only; the pair (0, 2) is consulted for Isosceles.
   */
  function Classify(x: real, y: real, z: real): (t: TriangleType)
    ensures t == Equilateral <==> Near(x, y) && Near(y, z)
    ensures t == Isosceles <==> !(Near(x, y) && Near(y, z)) && (Near(x, y) || Near(y, z) || Near(x, z))
    ensures t == Scalene <==> !Near(x, y) && !Near(y, z) && !Near(x, z)
  {
    if Near(x, y) && Near(y, z) then Equilateral
    else if Near(x, y) || Near(y, z) || Near(x, z) then Isosceles
    else Scalene
  }

  /** Three exactly equal sides are Equilateral. */
  lemma EqualSidesAreEquilateral(x: real)
    ensures Classify(x, x, x) == Equilateral
  {
  }

  /** An Equilateral triangle's first and last sides differ by less than twice the tolerance. */
  lemma EquilateralOuterPairBound(x: real, y: real, z: real)
    requires Classify(x, y, z) == Equilateral
    ensures Abs(x - z) < 2.0 * Tolerance
  {
  }

  /**
    Because the (0, 2) pair is not tested for Equilateral, the label can
    depend on the order of the sides: the same three lengths are
    Equilateral in one order and Isosceles in another.
   */
  lemma ClassificationDependsOnOrder()
    ensures Classify(1.0, 1.00009, 1.00018) == Equilateral
    ensures Classify(1.00009, 1.0, 1.00018) == Isosceles
  {
  }

  /** The radicand of Heron's formula, `p(p - x)(p - y)(p - z)` with `p` the semi-perimeter. */
  function HeronRadicand(x: real, y: real, z: real): real {
    var p := (x + y + z) / 2.0;
    p * (p - x) * (p - y) * (p - z)
  }

  /**
    For sides that satisfy the strict triangle inequality, Heron's
    radicand is positive, so the area's square root is of a positive
    number.
   */
  lemma HeronRadicandPositive(x: real, y: real, z: real)
    requires StrictTriangle(x, y, z)
    ensures HeronRadicand(x, y, z) > 0.0
  {
    var p := (x + y + z) / 2.0;
    var u, v, w := p - x, p - y, p - z;
    assert p > 0.0 && u > 0.0 && v > 0.0 && w > 0.0;
    ProductPositive(p, u);
    ProductPositive(p * u, v);
    ProductPositive(p * u * v, w);
  }

  /** The product of two positive reals is positive. */
  lemma ProductPositive(x: real, y: real)
    requires x > 0.0 && y > 0.0
    ensures x * y > 0.0
  {
  }

  /** The result object of `calculateTriangle`. */
  datatype Outcome =
    | Invalid(error: Failure, sidesSoFar: Triple<Slot>, anglesSoFar: Triple<Slot>)
    | Solved(sides: Triple<real>, angles: Triple<real>, area: real, perimeter: real, triangleType: TriangleType)

  /** A displayed number: a whole number of ten-thousandths within half a step of the computed one. */
  predicate Displays(shown: real, computed: real) {
    OnGrid(shown) && computed - HalfStep < shown <= computed + HalfStep
  }

  /** A computed number has only one display: two values that both display it are equal. */
  lemma DisplayedAs(shown: real, computed: real, expected: real)
    requires Displays(shown, computed) && Displays(expected, computed)
    ensures shown == expected
  {
    RoundUnique(computed, shown);
    RoundUnique(computed, expected);
  }

  /**
    The part after the case branches: area, perimeter and type from the
    unrounded slots, then every slot, the area and the perimeter rounded.
    A slot left `null` is used as 0.
   */
  function Finish(lib: Lib, w: Work): (r: Outcome)
    ensures r.Solved?
    ensures forall i: Idx :: Displays(r.sides.At(i), Num(w.sides.At(i)))
    ensures forall i: Idx :: Displays(r.angles.At(i), Num(w.angles.At(i)))
    ensures Displays(r.perimeter, Num(w.sides.x0) + Num(w.sides.x1) + Num(w.sides.x2))
    ensures Displays(r.area, lib.sqrt(HeronRadicand(Num(w.sides.x0), Num(w.sides.x1), Num(w.sides.x2))))
    ensures r.triangleType == Classify(Num(w.sides.x0), Num(w.sides.x1), Num(w.sides.x2))
  {
    var x, y, z := Num(w.sides.x0), Num(w.sides.x1), Num(w.sides.x2);
    var area := lib.sqrt(HeronRadicand(x, y, z));
    var perimeter := x + y + z;
    var sides := Triple(Round(x), Round(y), Round(z));
    var angles := Triple(Round(Num(w.angles.x0)), Round(Num(w.angles.x1)), Round(Num(w.angles.x2)));
    assert forall i: Idx :: sides.At(i) == Round(Num(w.sides.At(i))) && angles.At(i) == Round(Num(w.angles.At(i)));
    Solved(sides, angles, Round(area), Round(perimeter), Classify(x, y, z))
  }

  /** `calculateTriangle(sides, angles)` */
  function CalculateTriangle(lib: Lib, s: Triple<Slot>, a: Triple<Slot>): (r: Outcome)
    ensures (r.Invalid? && r.error == NotEnoughValues) <==> !HasEnoughInformation(s, a)
    ensures r.Invalid? && r.error in {NotEnoughValues, InsufficientInformation, TriangleInequality, NoSolution} ==>
      r.sidesSoFar == s && r.anglesSoFar == a
    ensures r.Solved? <==> Resolve(lib, s, a).Resolved?
    // a solved result shows the resolved slots, null as 0, each rounded
    ensures r.Solved? ==> forall i: Idx ::
      && Displays(r.sides.At(i), Num(Resolve(lib, s, a).w.sides.At(i)))
      && Displays(r.angles.At(i), Num(Resolve(lib, s, a).w.angles.At(i)))
    ensures r.Solved? ==> var t := Resolve(lib, s, a).w.sides;
      && Displays(r.perimeter, Num(t.x0) + Num(t.x1) + Num(t.x2))
      && Displays(r.area, lib.sqrt(HeronRadicand(Num(t.x0), Num(t.x1), Num(t.x2))))
      && r.triangleType == Classify(Num(t.x0), Num(t.x1), Num(t.x2))
  {
    match Resolve(lib, s, a)
    case Rejected(f, w) => Invalid(f, w.sides, w.angles)
    case Resolved(w) => Finish(lib, w)
  }

  /**
    `hasEnoughInformation` holds exactly when `calculateTriangle` gets
    past its first early return.
   */
  lemma GuardAgreement(lib: Lib, s: Triple<Slot>, a: Triple<Slot>)
    ensures HasEnoughInformation(s, a) <==> CalculateTriangle(lib, s, a) != Invalid(NotEnoughValues, s, a)
  {
  }

  /**
    Three known sides are solved exactly when they satisfy the strict
    triangle inequality; otherwise the triangle-inequality error is
    returned with the input unchanged.
   */
  lemma SssSolvedIffStrictTriangle(lib: Lib, s: Triple<Slot>, a: Triple<Slot>)
    requires KnownCount(s) == 3
    ensures CalculateTriangle(lib, s, a).Solved? <==> StrictTriangle(Val(s, 0), Val(s, 1), Val(s, 2))
    ensures !StrictTriangle(Val(s, 0), Val(s, 1), Val(s, 2)) ==>
      CalculateTriangle(lib, s, a) == Invalid(TriangleInequality, s, a)
  {
  }

  /**
    A solved SSS input has a positive Heron radicand and its displayed
    sides are the given sides to within half a display step.
   */
  lemma SssSolvedSides(lib: Lib, s: Triple<Slot>, a: Triple<Slot>)
    requires KnownCount(s) == 3
    requires StrictTriangle(Val(s, 0), Val(s, 1), Val(s, 2))
    ensures CalculateTriangle(lib, s, a).Solved?
    ensures HeronRadicand(Val(s, 0), Val(s, 1), Val(s, 2)) > 0.0
    ensures forall i: Idx :: Displays(CalculateTriangle(lib, s, a).sides.At(i), Val(s, i))
  {
    assert Resolve(lib, s, a) == SolveSSS(lib, Work(s, a));
    HeronRadicandPositive(Val(s, 0), Val(s, 1), Val(s, 2));
  }

  /**
    The strict inequality holds of the unrounded sides only: after
    rounding to four decimals the displayed sides of a solved triangle can
    be degenerate.
   */
  lemma RoundedSidesCanBeDegenerate(lib: Lib)
    ensures var s := Triple(Some(1.0), Some(1.0), Some(1.99999));
      var r := CalculateTriangle(lib, s, Triple(None, None, None));
      && r.Solved?
      && r.sides == Triple(1.0, 1.0, 2.0)
      && !StrictTriangle(r.sides.x0, r.sides.x1, r.sides.x2)
  {
    var s, a := Triple(Some(1.0), Some(1.0), Some(1.99999)), Triple(None, None, None);
    assert KnownCount(s) == 3 && StrictTriangle(Val(s, 0), Val(s, 1), Val(s, 2));
    SssSolvedSides(lib, s, a);
    ShownDegenerate(CalculateTriangle(lib, s, a).sides);
  }

  /** Sides computed as 1, 1 and 1.99999 can only be shown as 1, 1 and 2. */
  lemma ShownDegenerate(t: Triple<real>)
    requires Displays(t.At(0), 1.0) && Displays(t.At(1), 1.0) && Displays(t.At(2), 1.99999)
    ensures t == Triple(1.0, 1.0, 2.0)
  {
    assert Displays(1.0, 1.0) && Displays(2.0, 1.99999);
    DisplayedAs(t.x0, 1.0, 1.0);
    DisplayedAs(t.x1, 1.0, 1.0);
    DisplayedAs(t.x2, 1.99999, 2.0);
  }

  /**
    ASA and AAS: when solved, the unrounded angles sum to exactly 180,
    the angle not given is `180` minus the two given ones (whatever the
    user typed there), and every side is present.
   */
  lemma AsaAasAnglesSumTo180(lib: Lib, s: Triple<Slot>, a: Triple<Slot>)
    requires HasEnoughInformation(s, a)
    requires SelectCase(s, a).ASA? || SelectCase(s, a).AAS?
    requires Resolve(lib, s, a).Resolved?
    ensures var c := SelectCase(s, a);
      var i3 := Third(c.angle1, c.angle2);
      var w := Resolve(lib, s, a).w;
      && AngleSum(w.angles) == 180.0
      && w.angles.At(i3) == Some(180.0 - Val(a, c.angle1) - Val(a, c.angle2))
      && Val(w.angles, i3) > 0.0
  {
  }

  /**
    ASA and AAS reject, with the third angle already overwritten, exactly
    when the two given angles sum to 180 or more.
   */
  lemma AsaAasRejectIffAnglesTooLarge(lib: Lib, s: Triple<Slot>, a: Triple<Slot>)
    requires HasEnoughInformation(s, a)
    requires SelectCase(s, a).ASA? || SelectCase(s, a).AAS?
    ensures var c := SelectCase(s, a);
      CalculateTriangle(lib, s, a).Invalid? <==> Val(a, c.angle1) + Val(a, c.angle2) >= 180.0
    ensures var c := SelectCase(s, a);
      CalculateTriangle(lib, s, a).Invalid? ==>
        CalculateTriangle(lib, s, a) ==
          Invalid(AnglesTooLarge, s, a.With(Third(c.angle1, c.angle2), Some(180.0 - Val(a, c.angle1) - Val(a, c.angle2))))
  {
    var c := SelectCase(s, a);
    var r := Resolve(lib, s, a);
    if r.Rejected? {
      var t := a.With(Third(c.angle1, c.angle2), Some(180.0 - Val(a, c.angle1) - Val(a, c.angle2)));
      TripleExtensional(r.w.angles, t);
    }
  }

  /**
    SSA: the angle slot adjacent to the given angle is never written, so a
    solved SSA triangle shows 0 there; the slot of the given angle shows
    the computed angle instead (90 in the right-angle branch).
   */
  lemma SsaShowsZeroAngle(lib: Lib, s: Triple<Slot>, a: Triple<Slot>)
    requires HasEnoughInformation(s, a)
    requires SelectCase(s, a).SSA?
    ensures var r := CalculateTriangle(lib, s, a);
      r.Solved? ==> r.angles.At(SelectCase(s, a).adjacent) == 0.0
    ensures var c := SelectCase(s, a);
      var r := CalculateTriangle(lib, s, a);
      var h := Height(lib, Val(s, c.adjacent), Val(a, c.angle));
      r.Solved? && Val(s, c.opposite) - Tolerance < h ==> r.angles.At(c.opposite) == 90.0
  {
    var c := SelectCase(s, a);
    CycTable();
    assert !Present(a.At(c.adjacent));
    RoundZero();
    RoundUnique(90.0, 90.0);
  }

  /**
    SAS through the whole solver: the only error is the angle-sum one,
    and a solved triangle shows the cosine-rule side at the given angle's
    index.
   */
  lemma SasOutcome(lib: Lib, s: Triple<Slot>, a: Triple<Slot>)
    requires HasEnoughInformation(s, a)
    requires SelectCase(s, a).SAS?
    ensures var r := CalculateTriangle(lib, s, a);
      r.Invalid? ==> r.error == AngleSumOff
    ensures var c, r := SelectCase(s, a), CalculateTriangle(lib, s, a);
      r.Solved? ==>
        Displays(r.sides.At(c.angle), CosineRuleSide(lib, Val(s, c.side1), Val(s, c.side2), DegToRad(Val(a, c.angle))))
  {
    ResolveSas(lib, s, a);
  }

  /**
    SSA through the whole solver: the no-solution error, with the input
    unchanged, is returned exactly when the height exceeds the opposite
    side, and otherwise the triangle is solved.
   */
  lemma SsaOutcome(lib: Lib, s: Triple<Slot>, a: Triple<Slot>)
    requires HasEnoughInformation(s, a)
    requires SelectCase(s, a).SSA?
    ensures var c := SelectCase(s, a);
      CalculateTriangle(lib, s, a) == Invalid(NoSolution, s, a) <==>
        Height(lib, Val(s, c.adjacent), Val(a, c.angle)) > Val(s, c.opposite)
    ensures CalculateTriangle(lib, s, a).Solved? || CalculateTriangle(lib, s, a) == Invalid(NoSolution, s, a)
  {
    ResolveSsa(lib, s, a);
  }

  /** On well-formed input, the fallback error is returned exactly for the six unhandled configurations. */
  lemma InsufficientExactlyUnhandled(lib: Lib, s: Triple<Slot>, a: Triple<Slot>)
    requires WellFormed(s, a)
    ensures CalculateTriangle(lib, s, a) == Invalid(InsufficientInformation, s, a) <==>
      HasEnoughInformation(s, a) && Unhandled(s, a)
  {
    if HasEnoughInformation(s, a) {
      UnmatchedExactlyUnhandled(s, a);
    }
  }
}

=== FILE: validation.dfy ===
/**
  `validateInput`: the check applied to one form field before its value
  reaches the solver. `parseFloat` is not modelled; its result on the
  field's text is a parameter.
 */
module InputValidation {
  import opened Slots

  /** What `parseFloat` returns: a number or `NaN`. */
  datatype Parsed = Number(v: real) | NotANumber

  datatype InputError = NotPositive | AngleTooLarge

  function ErrorMessage(e: InputError): string {
    match e
    case NotPositive => "Please enter a positive number."
    case AngleTooLarge => "Angle must be less than 180 degrees."
  }

  /** `{isValid: true, value}` or `{isValid: false, error}` */
  datatype Validation = Accepted(value: real) | Refused(error: InputError)

  /** The values a field may hold: positive, and below 180 for an angle. */
  predicate InRange(v: real, isAngle: bool) {
    v > 0.0 && (isAngle ==> v < 180.0)
  }

  /**
    `validateInput(value, isAngle)`. `null` and the empty string give no
    validation at all (None); the positivity test comes before the angle
    test.
   */
  function ValidateInput(value: Option<string>, isAngle: bool, parseFloat: string -> Parsed): (r: Option<Validation>)
    ensures r.None? <==> value.None? || value.value == ""
    ensures r == Some(Refused(NotPositive)) <==>
      value.Some? && value.value != "" && !(parseFloat(value.value).Number? && parseFloat(value.value).v > 0.0)
    ensures r == Some(Refused(AngleTooLarge)) <==>
      && value.Some? && value.value != "" && isAngle
      && parseFloat(value.value).Number? && parseFloat(value.value).v >= 180.0
    ensures r.Some? && r.value.Accepted? <==>
      value.Some? && value.value != "" && parseFloat(value.value).Number? && InRange(parseFloat(value.value).v, isAngle)
    ensures r.Some? && r.value.Accepted? ==> parseFloat(value.value) == Number(r.value.value)
  {
    if value.None? || value.value == "" then None
    else
      match parseFloat(value.value)
      case NotANumber => Some(Refused(NotPositive))
      case Number(v) =>
        if v <= 0.0 then Some(Refused(NotPositive))
        else if isAngle && v >= 180.0 then Some(Refused(AngleTooLarge))
        else Some(Accepted(v))
  }
}
